=== FILE: README.md ===
# News helper: request and rendering logic in Dafny

The news helper is a small web service with a browser front end. A user
submits an article URL, a mode and a language together with an API key. The
service checks the key against the `ALLOWED_KEYS` allow-list and returns a
fixed, localised Markdown placeholder document. The front end shows that
document HTML-escaped inside a `<pre>` element, or shows an alert for a
rate-limit or error response.

This project models the pure logic of both halves as functions over strings:

- `Text` holds the JavaScript string operations used: `split` on one
  character (with `"".split(c) == [""]`), `join`, global one-character
  `replace`, `endsWith`/`startsWith`, `toLowerCase` and `filter(Boolean)`.
- `Auth` holds `isAuthorized`. Header values are `Absent`, `Single` or
  `Multi` (a list), and `ALLOWED_KEYS` is passed in as an optional string.
- `Server` holds `getLang`, mode and URL defaulting, the localised fragments,
  assembly of the Markdown document and the `/api/analyze` reply.
- `Cors` holds the `origin` callback. Its two end-anchored regular
  expressions are written as suffix conditions.
- `Render` holds `renderMarkdown`, i.e. the three global replacements and the
  `pre` wrapper.
- `Client` holds the form-field defaults and the 429 / not-ok / success choice
  of what to show.
- `Fetch` holds what `fetch` does with the two header values the client
  sets: a character above U+00FF throws a TypeError, HTTP whitespace is
  trimmed from both ends, and a NUL, LF or CR left in the value throws. This
  follows Web IDL's ByteString conversion and the Fetch Standard's header
  value normalization and validation.
- `EndToEnd` links the two halves: the client's request goes to the server,
  and the server's reply goes back through the client's branch choice. Two
  steps of the transport sit in between. The page may run on another origin,
  whose CORS preflight the server's `origin` callback decides. Node's HTTP
  parser rejects a header value holding a control character other than tab,
  and Fastify's default reply to that is 400 `Bad Request`.

Some behaviours of the code are easy to misread; the model follows the code:

- An empty `Origin` header is falsy in JavaScript, so it is allowed just like
  a missing one.
- An empty `x-api-key` is refused like a missing one. An empty list header is
  truthy, but its first element is `undefined`, so it is refused too.
- A 429 response shows the retry hint when the body cannot be parsed, and also
  when it parses but has no `message`. A present but empty `message` is shown
  as it is, because `??` only replaces a missing value.
- A success response whose body does not parse (or parses as `null`) does not
  reach the renderer. It raises an exception that the handler's `catch` block
  turns into the network-error notice, modelled as the outcome `Thrown`.
- The key and language fields do not reach the server verbatim. `fetch`
  trims surrounding whitespace, so a key typed as `k ` is accepted when `k`
  is listed. A key with a character above U+00FF, or an inner CR, LF or NUL,
  makes `fetch` throw, and the handler shows the network-error notice rather
  than `Error: unauthorized`.
- A key with an inner control character other than tab, CR, LF or NUL (for
  example U+0001) is sent by `fetch` but rejected by Node's parser before the
  route handler runs. A same-origin page then shows `Error: Bad Request`. On
  another origin the plain 400 reply carries no CORS headers, so `fetch`
  rejects and the network-error notice is shown.
- A page on an origin the `origin` callback refuses never reaches the API:
  the preflight fails and the network-error notice is shown.
- The `hexagonlabs.cloud` pattern is anchored only at the end. So it admits any
  origin ending in that text, not only subdomains. `Cors.AnyCloudSuffixAllowed`
  states this, and `Cors.AnyLocalhostPortAllowed` states the same for
  `localhost:<port>`.

## Model

| member | source | states |
|---|---|---|
| Text.Split | apps/server/src/index.ts:26-28 | `split` on one character yields one more piece than there are separators, no piece holds the separator, and joining the pieces with the separator restores the input |
| Text.SplitJoin | apps/server/src/index.ts:27-28 | splitting a join of separator-free parts gives back exactly those parts |
| Auth.SecondField | apps/server/src/index.ts:28 | `pair.split(':')[1]` is present exactly when the entry contains `:` and never contains `:` itself |
| Auth.SecondFieldIs | apps/server/src/index.ts:28 | the second field of `a:k` followed by nothing or by `:` and more text is exactly `k`, the text between the first and the second `:` |
| Auth.KeyFields | apps/server/src/index.ts:26-29 | a string is in the accepted-key list iff it is the non-empty second `:`-field of some pipe-separated entry; entries with no or an empty second field contribute nothing |
| Auth.IsAuthorized | apps/server/src/index.ts:23-34 | a header is accepted iff its value (the first element for a list) is a listed key; an absent or empty header is never accepted |
| Auth.ListHeaderFirstOnly | apps/server/src/index.ts:31-33 | for a list header only the first element decides; an empty list is refused |
| Auth.FormattedAllowList | apps/server/src/index.ts:26-33 | for an allow-list of `label:key` entries joined by pipes, built from delimiter-free labels and keys, a header is accepted iff it is a non-empty key of some pair; labels never match |
| Auth.ThreeFieldEntry | apps/server/src/index.ts:28 | the entry `a:b:c` contributes exactly the key `b` |
| Auth.EmptyAllowList | apps/server/src/index.ts:26-27 | an unset or empty `ALLOWED_KEYS` accepts no header at all |
| Server.GetLang | apps/server/src/index.ts:37-41 | the language is `Es` iff the header text is one of `es`, `eS`, `Es`, `ES`, and `En` for every other value, including a missing header |
| Server.Markdown | apps/server/src/index.ts:56-88 | the document is title, mode heading, the URL line only when the URL is non-empty, TL;DR, key points and sources, with one blank line between neighbours and no blank line left where an empty URL line was dropped |
| Server.MarkdownOpening | apps/server/src/index.ts:79-82 | the document begins with the language's title, a blank line, and the mode heading as the second block |
| Server.Analyze | apps/server/src/index.ts:44-95 | status 401 iff the key is refused, and then the body is exactly `{error: "unauthorized"}` with no document; otherwise status 200, null metadata, mode `summary` when absent and the given mode verbatim otherwise, and the document for the resolved language, mode and URL |
| Server.AnalyzeTitle | apps/server/src/index.ts:56-69 | an accepted request's document starts with `# News Helper (Borrador)` when the lower-cased `x-lang` is `es` and with `# News Helper (Stub)` otherwise |
| Cors.TrailingDigits | apps/server/src/index.ts:11 | the counted suffix is all digits and is preceded by a non-digit or the start of the string, so it is the maximal trailing digit run |
| Cors.LocalhostPort | apps/server/src/index.ts:11-13 | the stripping decision agrees with the pattern `localhost:\d+$`: some position reads `localhost:` followed by one or more digits up to the end |
| Cors.OriginAllowed | apps/server/src/index.ts:8-16 | a missing or empty origin is always allowed; a non-empty origin is allowed iff it ends with `localhost:` and one or more digits, or ends with `hexagonlabs.cloud` |
| Cors.AnyLocalhostPortAllowed | apps/server/src/index.ts:11 | any text followed by `localhost:` and a digit string is an allowed origin |
| Cors.AnyCloudSuffixAllowed | apps/server/src/index.ts:11 | any text followed by `hexagonlabs.cloud` is an allowed origin |
| Cors.LocalhostWithoutPortRefused | apps/server/src/index.ts:11-15 | an origin ending in `localhost` with no port is refused |
| Render.EscapeEach | apps/web/main.ts:63-66 | the escaped text holds no `<` or `>`, and its length is the input's plus 4 per `&` and 3 per `<` or `>` |
| Render.Escape | apps/web/main.ts:63-66 | the three sequential replacements (`&`, then `<`, then `>`) equal per-character escaping, because the `&` of the entities added later is never replaced again |
| Render.AmpersandsBeginEntities | apps/web/main.ts:63-66 | every `&` of the escaped text begins `&amp;`, `&lt;` or `&gt;` |
| Render.UnescapeEscape | apps/web/main.ts:63-66 | decoding the three entities of the escaped text restores the original text exactly |
| Render.PlainUnchanged | apps/web/main.ts:63-66 | text without `&`, `<` or `>` is left unchanged |
| Render.CharacterImage | apps/web/main.ts:63-66 | each input character's image stands, unchanged for ordinary characters, right after the image of the text before it |
| Render.ImagesInOrder | apps/web/main.ts:63-66 | images of later characters come strictly later, so the order of the input is kept |
| Render.RenderMarkdown | apps/web/main.ts:62-68 | the output is the `pre class="markdown"` element around the per-character escape of the text, with exact length; its only `<` characters are the two tag openings, and decoding its content restores the Markdown |
| Client.ReadForm | apps/web/main.ts:10-14 | missing fields default to `url=""`, `mode="summary"`, `lang="en"`, `key=""`, and present fields, even empty ones, are kept verbatim |
| Client.HandleResponse | apps/web/main.ts:27-44 | status 429 gives the rate-limit alert whatever `ok` is; another failure gives `Error: ` and `error` or the status text; a parsed success shows exactly `renderMarkdown(data)`, the `pre` element that decodes to `data` and holds no other markup; an unparsable success raises |
| Client.RateLimitFallback | apps/web/main.ts:27-33 | a 429 with no body or no `message` shows `Rate limited. Please retry in ~60s.` |
| Client.EmptyDataRendersEmptyElement | apps/web/main.ts:42-44 | a success whose `data` is missing or empty shows `<pre class="markdown"></pre>` |
| Client.BranchFromOpening | apps/web/main.ts:27-44 | the three outcomes are mutually exclusive and told apart by their opening: rate-limit alert iff 429, error alert iff another failure, `pre` element iff a parsed success |
| Fetch.Trim | apps/web/main.ts:19-23 | the normalized header value has no HTTP whitespace at either end and is empty exactly when the input was all whitespace |
| Fetch.TrimPadded | apps/web/main.ts:19-23 | trimming a value without whitespace at its ends, padded with any whitespace, gives back exactly that value |
| Fetch.SendHeader | apps/web/main.ts:19-25 | a header value that is sent is a valid header value (bytes only, no NUL, LF or CR, no whitespace at the ends); a character above U+00FF always throws |
| Fetch.SendPadded | apps/web/main.ts:19-25 | a whitespace-padded value is sent as the bare value when that is valid, and throws otherwise |
| EndToEnd.SubmitOutcome | apps/web/main.ts:1-48 | a refused page origin, or a key or language `fetch` refuses, ends in the `catch` block; a sent value Node's parser rejects shows `Error: Bad Request` on the API's own origin and ends in the `catch` block elsewhere; a request that reaches the handler with a refused key, in particular a missing or empty key field, shows `Error: unauthorized`; an accepted one shows exactly `renderMarkdown` of the server's document, with the form's mode (or `summary`) echoed |
| EndToEnd.SubmitIgnoresPadding | apps/web/main.ts:14-25 | whitespace around a valid key field leaves the whole submission's outcome unchanged |
| EndToEnd.ControlCharacterKey | apps/web/main.ts:14-39 | the key `a` U+0001 `b` on a same-origin page shows `Error: Bad Request`, not `Error: unauthorized` |
| EndToEnd.WideKeyThrows | apps/web/main.ts:14-48 | a key field with a character above U+00FF ends in the network-error branch |
| EndToEnd.SubmitLanguage | apps/web/main.ts:13-44 | when the request gets through with an accepted key, a form with `lang` `es` is shown the rendered Spanish document and one without the field the English one |

## Left out

- Fastify construction, plugin and route registration, `app.listen`, `process.exit` and port parsing: these are framework and process I/O.
- `GET /healthz`: it returns the constant `{ok: true}` and has no logic to model.
- Reading `process.env`: `ALLOWED_KEYS` is a parameter of `Auth.IsAuthorized` and `Server.Analyze`.
- The regular-expression engine: the two origin patterns are written as suffix conditions and shown equal to the pattern's meaning.
- `fetch`, `FormData`, DOM queries, the "Analyzing…" placeholder and `innerHTML` assignment: these are browser I/O. The request the client sends is modelled by `EndToEnd.ClientRequest`, whose two header values pass through `Fetch.SendHeader`. The `Content-Type` header and the JSON body always pass `fetch` unchanged.
- EndToEnd.SubmitOutcome: of the server's HTTP layer only the origin decision and Node's header-character check are modelled. A value that passes the check arrives as `fetch` sent it, because Node decodes header bytes as Latin-1, which gives back the same characters. Other transport failures (an unreachable host, the header-size limit, time-outs) are not modelled.
- The CORS preflight's header list: `@fastify/cors` reflects the requested headers, so only its origin decision can refuse a page. The other fields of Fastify's 400 body (`message`, `statusCode`) are not read by the client and are left out.
- Fetch.SendHeader: strings are sequences of Unicode scalar values, so a JavaScript string holding a lone surrogate has no counterpart. Any other character above U+FFFF is two UTF-16 code units, both above 0xFF, so the ByteString decision is the same.
- JSON parsing and `safeJson`: a parsed body is an optional record of optional strings. JSON values that are not strings (a numeric `mode`, `message` or `data`) are not modelled.
- The network-error branch's message (`err?.message ?? err`): it depends on arbitrary JavaScript values. It is reduced to the outcome `Thrown`, which also stands for the TypeError `fetch` throws for an unsendable header value.
- `async`/`await` sequencing and concurrency between submissions.
- Injection-freedom of the alert branches: they interpolate `message`, `error` and `statusText` unescaped, so only the success path's escaping is proved.
- `apps/web/vite-env.d.ts`: it holds type declarations only. The API base URL matters only for which origin the page calls, which is the `EndToEnd.Page` parameter. The default-language setting it declares has no logic.
- Server.GetLang: lower-casing is modelled for ASCII letters only. Under Unicode's default mapping no other character lower-cases to `e` or `s`, so the `es` decision is the same.
- EndToEnd.Deliver: the HTTP reason phrase is fixed per reply kind (`Unauthorized`, `OK`), because the HTTP layer, not this code, produces it.

=== FILE: auth.dfy ===
/**
 * The API key check of the analyze endpoint (`isAuthorized`). The allow-list
 * `ALLOWED_KEYS` has the shape `label1:key1|label2:key2|...`; it is passed in
 * as an optional string instead of being read from the process environment.
 */
module Auth {
  import opened Wrappers
  import opened Text

  /** A request header as Node presents it: absent, one string, or a list of strings. */
  datatype HeaderValue = Absent | Single(s: string) | Multi(xs: seq<string>)

  /** JavaScript truthiness of a header value: `undefined` and `""` are falsy, any array is truthy. */
  predicate Truthy(h: HeaderValue) {
    match h
    case Absent => false
    case Single(s) => s != ""
    case Multi(_) => true
  }

  /** The value that is compared: the string itself, or the first element of a list. */
  function Candidate(h: HeaderValue): Option<string> {
    match h
    case Absent => None
    case Single(s) => Some(s)
    case Multi(xs) => if |xs| > 0 then Some(xs[0]) else None
  }

  /** `pair.split(':')[1]`: the second `:`-field of an entry, absent when there is no `:`. */
  function SecondField(entry: string): (f: Option<string>)
    ensures f.Some? <==> ':' in entry
    ensures f.Some? ==> ':' !in f.value
  {
    var fields := Split(entry, ':');
    if |fields| >= 2 then Some(fields[1]) else None
  }

  /**
   * The second field is the text after the first `:`, up to the next `:` or
   * the end of the entry.
   */
  lemma SecondFieldIs(a: string, k: string, b: string)
    requires ':' !in a && ':' !in k && (b == "" || b[0] == ':')
    ensures SecondField(a + ":" + k + b) == Some(k)
  {
    assert a + ":" + k + b == a + [':'] + (k + b);
    SplitAfterPrefix(a, ':', k + b);
    if b == "" {
      assert k + b == k;
      SplitNoSeparator(k, ':');
    } else {
      assert k + b == k + [':'] + b[1..];
      SplitAfterPrefix(k, ':', b[1..]);
    }
  }

  /** The entries of the allow-list: `(ALLOWED_KEYS ?? '').split('|')`. */
  function Entries(allowedKeys: Option<string>): (es: seq<string>)
    ensures |es| >= 1
  {
    Split(allowedKeys.GetOr(""), '|')
  }

  /** `k` is the non-empty second field of one of the entries. */
  ghost predicate Listed(entries: seq<string>, k: string) {
    k != "" && exists i :: 0 <= i < |entries| && SecondField(entries[i]) == Some(k)
  }

  /**
   * `.map((pair) => pair.split(':')[1]).filter(Boolean)`: the second fields of
   * the entries, in order, with missing and empty ones dropped.
   */
  function KeyFields(entries: seq<string>): (keys: seq<string>)
    ensures |keys| <= |entries|
    ensures forall k :: k in keys <==> Listed(entries, k)
  {
    if |entries| == 0 then []
    else
      var f := SecondField(entries[0]);
      var rest := KeyFields(entries[1..]);
      assert forall k :: Listed(entries, k) <==> (k != "" && f == Some(k)) || Listed(entries[1..], k) by {
        forall k
          ensures Listed(entries, k) <==> (k != "" && f == Some(k)) || Listed(entries[1..], k)
        {
          if Listed(entries[1..], k) {
            var i :| 0 <= i < |entries[1..]| && SecondField(entries[1..][i]) == Some(k);
            assert SecondField(entries[i + 1]) == Some(k);
          }
          if Listed(entries, k) && f != Some(k) {
            var i :| 0 <= i < |entries| && SecondField(entries[i]) == Some(k);
            assert i > 0 && entries[1..][i - 1] == entries[i];
          }
        }
      }
      (if f.Some? && f.value != "" then [f.value] else []) + rest
  }

  /** The list of accepted keys derived from `ALLOWED_KEYS`. */
  function AllowedKeys(allowedKeys: Option<string>): seq<string> {
    KeyFields(Entries(allowedKeys))
  }

  /**
   * `isAuthorized(key)`: a falsy header is refused outright; otherwise the
   * string (or the first list element) must be one of the accepted keys.
   * Accepted exactly when that candidate is a non-empty second field of some
   * entry, so an absent or empty header is never accepted.
   */
  function IsAuthorized(allowedKeys: Option<string>, key: HeaderValue): (ok: bool)
    ensures ok <==> exists k :: Candidate(key) == Some(k) && Listed(Entries(allowedKeys), k)
    ensures Candidate(key) == None || Candidate(key) == Some("") ==> !ok
  {
    if !Truthy(key) then false
    else
      var allowed := AllowedKeys(allowedKeys);
      match key
      case Single(s) => s in allowed
      case Multi(xs) => |xs| > 0 && xs[0] in allowed
  }

  /** For a list-valued header only the first element is compared; an empty list is refused. */
  lemma ListHeaderFirstOnly(allowedKeys: Option<string>, xs: seq<string>)
    ensures |xs| == 0 ==> !IsAuthorized(allowedKeys, Multi(xs))
    ensures |xs| > 0 ==> IsAuthorized(allowedKeys, Multi(xs)) == IsAuthorized(allowedKeys, Single(xs[0]))
  {
  }

  /** The allow-list text for a list of `(label, key)` pairs: `label:key` joined by `|`. */
  function Format(pairs: seq<(string, string)>): string {
    Join(seq(|pairs|, i requires 0 <= i < |pairs| => pairs[i].0 + ":" + pairs[i].1), "|")
  }

  /** A label or key that cannot be confused with the delimiters. */
  predicate Plain(s: string) {
    ':' !in s && '|' !in s
  }

  /**
   * For a well-formed allow-list, a single header value is accepted exactly
   * when it is a non-empty key of one of the pairs: the labels never count.
   */
  lemma FormattedAllowList(pairs: seq<(string, string)>, k: string)
    requires forall i :: 0 <= i < |pairs| ==> Plain(pairs[i].0) && Plain(pairs[i].1)
    ensures IsAuthorized(Some(Format(pairs)), Single(k)) <==>
      k != "" && exists i :: 0 <= i < |pairs| && pairs[i].1 == k
  {
    var entries := seq(|pairs|, i requires 0 <= i < |pairs| => pairs[i].0 + ":" + pairs[i].1);
    forall i | 0 <= i < |pairs|
      ensures SecondField(entries[i]) == Some(pairs[i].1)
    {
      SplitAfterPrefix(pairs[i].0, ':', pairs[i].1);
      SplitNoSeparator(pairs[i].1, ':');
    }
    if |pairs| == 0 {
      assert Entries(Some(Format(pairs))) == [""];
      assert SecondField("") == None;
    } else {
      forall i | 0 <= i < |entries| ensures '|' !in entries[i] {
        assert entries[i] == pairs[i].0 + [':'] + pairs[i].1;
      }
      SplitJoin(entries, '|');
      assert Entries(Some(Format(pairs))) == entries;
    }
  }

  /** `"a:b:c"` contributes the key `"b"`: only the second field is taken. */
  lemma ThreeFieldEntry()
    ensures AllowedKeys(Some("a:b:c")) == ["b"]
  {
    SplitNoSeparator("a:b:c", '|');
    SecondFieldIs("a", "b", ":c");
    assert "a" + ":" + "b" + ":c" == "a:b:c";
    OneEntry("a:b:c", "b");
  }

  /** A single entry with a non-empty second field yields exactly that key. */
  lemma OneEntry(entry: string, k: string)
    requires SecondField(entry) == Some(k) && k != ""
    ensures KeyFields([entry]) == [k]
  {
    assert [entry][1..] == [];
  }

  /** An unset or empty allow-list accepts nothing. */
  lemma EmptyAllowList(key: HeaderValue)
    ensures !IsAuthorized(None, key)
    ensures !IsAuthorized(Some(""), key)
  {
    assert Entries(None) == [""] && Entries(Some("")) == [""];
    assert SecondField("") == None;
  }
}

=== FILE: client.dfy ===
/**
 * The web client's submit handler, without the DOM and the network: reading
 * the form fields with their defaults, and choosing what to show for the
 * response (rate limited, error, or the rendered Markdown).
 */
module Client {
  import opened Wrappers
  import opened Text
  import opened Render

  /** The form fields as `FormData.get` returns them: `null` when missing, else the text. */
  datatype FormFields = FormFields(url: Option<string>, mode: Option<string>, lang: Option<string>, key: Option<string>)

  /** The four values the handler sends. */
  datatype FormInput = FormInput(url: string, mode: string, lang: string, key: string)

  /**
   * `String(data.get(name) ?? default)` for each field: a missing field takes
   * its default (`""`, `"summary"`, `"en"`, `""`) and a present one, even an
   * empty one, is kept as it is.
   */
  function ReadForm(f: FormFields): (inp: FormInput)
    ensures f.url.None? ==> inp.url == ""
    ensures f.mode.None? ==> inp.mode == "summary"
    ensures f.lang.None? ==> inp.lang == "en"
    ensures f.key.None? ==> inp.key == ""
    ensures f.url.Some? ==> inp.url == f.url.value
    ensures f.mode.Some? ==> inp.mode == f.mode.value
    ensures f.lang.Some? ==> inp.lang == f.lang.value
    ensures f.key.Some? ==> inp.key == f.key.value
  {
    FormInput(f.url.GetOr(""), f.mode.GetOr("summary"), f.lang.GetOr("en"), f.key.GetOr(""))
  }

  /** The fields of a parsed JSON response body that the handler looks at. */
  datatype ResponseBody = ResponseBody(message: Option<string>, error: Option<string>, data: Option<string>)

  /**
   * A response as the handler sees it: the status, `r.ok`, `r.statusText`, and
   * the parsed body, absent when the body is JSON `null` or cannot be parsed.
   */
  datatype HttpResponse = HttpResponse(status: int, ok: bool, statusText: string, body: Option<ResponseBody>)

  /**
   * What ends up in the result element: an HTML string, or an exception that
   * reaches the handler's `catch` block (`fetch` refused a header value, or
   * parsing a successful response failed).
   */
  datatype Outcome = Shown(html: string) | Thrown

  const AlertOpen: string := "<div class=\"alert\">"
  const AlertClose: string := "</div>"
  const RateLimited: string := "Rate limited. "
  const ErrorLabel: string := "Error: "
  const RetryHint: string := "Please retry in ~60s."

  /** The alert element around a text, interpolated without escaping. */
  function Alert(text: string): string {
    AlertOpen + text + AlertClose
  }

  /** `body?.message ?? 'Please retry in ~60s.'` */
  function RateLimitText(body: Option<ResponseBody>): string {
    if body.Some? && body.value.message.Some? then body.value.message.value else RetryHint
  }

  /** `body?.error ?? r.statusText` */
  function ErrorText(body: Option<ResponseBody>, statusText: string): string {
    if body.Some? && body.value.error.Some? then body.value.error.value else statusText
  }

  /** `String(body.data || '')`: an absent or empty `data` is the empty document. */
  function DataText(body: ResponseBody): string {
    body.data.GetOr("")
  }

  /**
   * The branch selection after `fetch` resolves: 429 first (even though a 429
   * is also not ok), then any other failure status, then success. On success
   * the data is rendered through `renderMarkdown`; the contract of
   * `RenderMarkdown` then says that what is shown decodes back to the data
   * exactly and holds no `<` besides the element's tags.
   */
  function HandleResponse(r: HttpResponse): (out: Outcome)
    ensures r.status == 429 ==> out == Shown(Alert(RateLimited + RateLimitText(r.body)))
    ensures r.status != 429 && !r.ok ==> out == Shown(Alert(ErrorLabel + ErrorText(r.body, r.statusText)))
    ensures r.status != 429 && r.ok ==> (out.Thrown? <==> r.body.None?)
    ensures r.status != 429 && r.ok && r.body.Some? ==>
      && out.Shown?
      && out.html == RenderMarkdown(DataText(r.body.value))
  {
    if r.status == 429 then
      Shown(Alert(RateLimited + RateLimitText(r.body)))
    else if !r.ok then
      Shown(Alert(ErrorLabel + ErrorText(r.body, r.statusText)))
    else
      match r.body
      case None => Thrown
      case Some(body) => Shown(RenderMarkdown(DataText(body)))
  }

  /** A 429 without a usable body shows the fixed retry hint, whatever `ok` says. */
  lemma RateLimitFallback(ok: bool, statusText: string, body: Option<ResponseBody>)
    requires body.None? || body.value.message.None?
    ensures HandleResponse(HttpResponse(429, ok, statusText, body))
      == Shown(AlertOpen + "Rate limited. Please retry in ~60s." + AlertClose)
  {
    assert RateLimited + RetryHint == "Rate limited. Please retry in ~60s.";
  }

  /** A success whose `data` is missing or empty shows an empty `pre` element. */
  lemma EmptyDataRendersEmptyElement(status: int, statusText: string, body: ResponseBody)
    requires status != 429 && (body.data.None? || body.data == Some(""))
    ensures HandleResponse(HttpResponse(status, true, statusText, Some(body))) == Shown(PreOpen + PreClose)
  {
    assert EscapeEach("") == "";
  }

  /** The opening of the rate-limit alert. */
  const RateOpen: string := AlertOpen + RateLimited
  /** The opening of the error alert. */
  const ErrorOpen: string := AlertOpen + ErrorLabel

  /** The rate-limit alert, the error alert and the rendered document start differently. */
  lemma OpeningsDiffer()
    ensures |AlertOpen| < |RateOpen| && |AlertOpen| < |ErrorOpen|
    ensures RateOpen[|AlertOpen|] == 'R' && ErrorOpen[|AlertOpen|] == 'E'
    ensures RateOpen[1] == 'd' && ErrorOpen[1] == 'd' && |PreOpen| > 1 && PreOpen[1] == 'p'
  {
  }

  /** A rate-limit alert starts with its own opening only. */
  lemma RateBranchOpening(t: string)
    ensures var html := Alert(RateLimited + t);
      HasPrefix(html, RateOpen) && !HasPrefix(html, ErrorOpen) && !HasPrefix(html, PreOpen)
  {
    var html := Alert(RateLimited + t);
    assert html == RateOpen + (t + AlertClose);
    PrefixOfConcat(RateOpen, t + AlertClose);
    OpeningsDiffer();
    PrefixClash(html, RateOpen, ErrorOpen, |AlertOpen|);
    PrefixClash(html, RateOpen, PreOpen, 1);
  }

  /** An error alert starts with its own opening only. */
  lemma ErrorBranchOpening(t: string)
    ensures var html := Alert(ErrorLabel + t);
      HasPrefix(html, ErrorOpen) && !HasPrefix(html, RateOpen) && !HasPrefix(html, PreOpen)
  {
    var html := Alert(ErrorLabel + t);
    assert html == ErrorOpen + (t + AlertClose);
    PrefixOfConcat(ErrorOpen, t + AlertClose);
    OpeningsDiffer();
    PrefixClash(html, ErrorOpen, RateOpen, |AlertOpen|);
    PrefixClash(html, ErrorOpen, PreOpen, 1);
  }

  /** A rendered document starts with the element's opening only. */
  lemma RenderedOpening(html: string)
    requires HasPrefix(html, PreOpen)
    ensures !HasPrefix(html, RateOpen) && !HasPrefix(html, ErrorOpen)
  {
    OpeningsDiffer();
    PrefixClash(html, PreOpen, RateOpen, 1);
    PrefixClash(html, PreOpen, ErrorOpen, 1);
  }

  /**
   * The three outcomes are told apart by their opening: the shown HTML starts
   * with the rate-limit alert exactly for status 429, with the error alert
   * exactly for another failure status, and with the `pre` element exactly for
   * a parsed success.
   */
  lemma BranchFromOpening(r: HttpResponse)
    ensures var out := HandleResponse(r);
      && (out.Shown? && HasPrefix(out.html, RateOpen) <==> r.status == 429)
      && (out.Shown? && HasPrefix(out.html, ErrorOpen) <==> r.status != 429 && !r.ok)
      && (out.Shown? && HasPrefix(out.html, PreOpen) <==> r.status != 429 && r.ok && r.body.Some?)
  {
    var out := HandleResponse(r);
    if r.status == 429 {
      RateBranchOpening(RateLimitText(r.body));
    } else if !r.ok {
      ErrorBranchOpening(ErrorText(r.body, r.statusText));
    } else if r.body.Some? {
      RenderedOpening(out.html);
    }
  }
}

=== FILE: cors.dfy ===
/**
 * The cross-origin policy of the API service: the `origin` callback given to
 * the CORS plugin. The two regular expressions `/localhost:\d+$/` and
 * `/hexagonlabs\.cloud$/` are anchored at the end only, so each is a
 * condition on a suffix of the origin.
 */
module Cors {
  import opened Wrappers
  import opened Text

  /** `\d` without the Unicode flag: an ASCII digit. */
  predicate IsDigit(c: char) {
    '0' <= c <= '9'
  }

  predicate AllDigits(s: string) {
    forall i :: 0 <= i < |s| ==> IsDigit(s[i])
  }

  const LocalhostColon: string := "localhost:"
  const CloudDomain: string := "hexagonlabs.cloud"

  /**
   * What `/localhost:\d+$/` matches: at some position the origin reads
   * "localhost:" and everything after that is one or more digits.
   */
  ghost predicate MatchesLocalhostPort(o: string) {
    exists i :: LocalhostPortAt(o, i)
  }

  /** At position `i` the origin reads "localhost:" followed by one or more digits up to its end. */
  predicate LocalhostPortAt(o: string, i: int) {
    0 <= i && i + |LocalhostColon| < |o|
      && o[i..i + |LocalhostColon|] == LocalhostColon
      && AllDigits(o[i + |LocalhostColon|..])
  }

  /** The length of the longest run of digits that ends the string. */
  function TrailingDigits(o: string): (n: nat)
    ensures n <= |o|
    ensures AllDigits(o[|o| - n..])
    ensures n < |o| ==> !IsDigit(o[|o| - n - 1])
  {
    if |o| == 0 || !IsDigit(o[|o| - 1]) then 0
    else
      var n := 1 + TrailingDigits(o[..|o| - 1]);
      assert o[|o| - n..] == o[..|o| - 1][|o| - n..] + [o[|o| - 1]];
      n
  }

  /** A digit run that ends the string and is preceded by a non-digit is the whole trailing run. */
  lemma TrailingDigitsExact(o: string, j: nat)
    requires 0 < j <= |o| && !IsDigit(o[j - 1]) && AllDigits(o[j..])
    ensures TrailingDigits(o) == |o| - j
  {
  }

  /** Stripping the trailing digits of a match leaves a string ending in "localhost:". */
  lemma MatchFoundByStripping(o: string)
    requires MatchesLocalhostPort(o)
    ensures LocalhostBeforeDigits(o)
  {
    var k := |LocalhostColon|;
    var i :| LocalhostPortAt(o, i);
    assert o[i + k - 1] == o[i..i + k][k - 1];
    TrailingDigitsExact(o, i + k);
    var n := TrailingDigits(o);
    assert o[..|o| - n][|o| - n - k..] == o[i..i + k];
  }

  /** The decision procedure: "localhost:" right before a non-empty run of trailing digits. */
  predicate LocalhostBeforeDigits(o: string) {
    var n := TrailingDigits(o);
    n >= 1 && HasSuffix(o[..|o| - n], LocalhostColon)
  }

  /** "localhost:" right before the trailing digits is a match of the pattern. */
  lemma StrippedMatch(o: string)
    requires LocalhostBeforeDigits(o)
    ensures MatchesLocalhostPort(o)
  {
    var n := TrailingDigits(o);
    var k := |LocalhostColon|;
    var i := |o| - n - k;
    assert o[i..i + k] == o[..|o| - n][|o| - n - k..];
    assert LocalhostPortAt(o, i);
  }

  /**
   * `/localhost:\d+$/.test(o)`, decided by stripping the trailing digits and
   * looking for "localhost:" right before them. Agrees with the pattern's
   * meaning on every string.
   */
  function LocalhostPort(o: string): (b: bool)
    ensures b <==> MatchesLocalhostPort(o)
  {
    if LocalhostBeforeDigits(o) then
      StrippedMatch(o);
      true
    else
      assert !MatchesLocalhostPort(o) by {
        if MatchesLocalhostPort(o) {
          MatchFoundByStripping(o);
          assert false;
        }
      }
      false
  }

  /**
   * The `origin` callback: a missing (or empty) origin is allowed; otherwise
   * the origin must end with "localhost:" and a port number, or end with
   * "hexagonlabs.cloud".
   */
  function OriginAllowed(origin: Option<string>): (ok: bool)
    ensures origin.None? || origin == Some("") ==> ok
    ensures origin.Some? && origin.value != "" ==>
      (ok <==> MatchesLocalhostPort(origin.value) || HasSuffix(origin.value, CloudDomain))
  {
    match origin
    case None => true
    case Some(o) => o == "" || LocalhostPort(o) || HasSuffix(o, CloudDomain)
  }

  /** Only the end is anchored: anything may come before "localhost:<port>". */
  lemma AnyLocalhostPortAllowed(before: string, port: string)
    requires |port| >= 1 && AllDigits(port)
    ensures OriginAllowed(Some(before + LocalhostColon + port))
  {
    var o := before + LocalhostColon + port;
    var i := |before|;
    assert o[i..i + |LocalhostColon|] == LocalhostColon;
    assert o[i + |LocalhostColon|..] == port;
    assert LocalhostPortAt(o, i);
  }

  /** Only the end is anchored: any text ending in "hexagonlabs.cloud" is allowed, not just its subdomains. */
  lemma AnyCloudSuffixAllowed(before: string)
    ensures OriginAllowed(Some(before + CloudDomain))
  {
    var o := before + CloudDomain;
    assert o[|o| - |CloudDomain|..] == CloudDomain;
  }

  /** A localhost origin without a port is refused. */
  lemma LocalhostWithoutPortRefused(before: string)
    ensures !OriginAllowed(Some(before + "localhost"))
  {
    var o := before + "localhost";
    assert o[|o| - 1] == 't';
    assert TrailingDigits(o) == 0;
  }
}

=== FILE: endtoend.dfy ===
/**
 * The client and the server together: the request the submit handler sends
 * for a form, the server's answer to it, and what the client then shows.
 */
module EndToEnd {
  import opened Wrappers
  import opened Text
  import opened Auth
  import opened Server
  import opened Render
  import opened Client
  import opened Fetch
  import opened Cors

  /**
   * The request the submit handler sends: `x-api-key`, `x-lang` and the JSON
   * body `{url, mode}`. The two header values pass through `fetch`, which trims
   * them or throws; `None` is the thrown TypeError.
   */
  function ClientRequest(inp: FormInput): Option<Request> {
    match (SendHeader(inp.key), SendHeader(inp.lang))
    case (Some(key), Some(lang)) =>
      Some(Request(Single(key), Single(lang), Some(AnalyzeBody(Some(inp.url), Some(inp.mode)))))
    case _ => None
  }

  /** The server's reply as the client receives it. */
  function Deliver(reply: Reply): HttpResponse {
    match reply.payload
    case ErrorPayload(e) =>
      HttpResponse(reply.status, 200 <= reply.status < 300, "Unauthorized", Some(ResponseBody(None, Some(e), None)))
    case AnalysisPayload(_, _, data) =>
      HttpResponse(reply.status, 200 <= reply.status < 300, "OK", Some(ResponseBody(None, None, Some(data))))
  }

  /**
   * Where the page runs: on the API's own origin (the default base URL
   * `/api`), or on another origin, which makes the browser send a CORS
   * preflight that the server's `origin` callback decides.
   */
  datatype Page = SameOrigin | CrossOrigin(origin: string)

  /** The browser lets the page call the API: same origin, or an origin the callback allows. */
  predicate Admitted(page: Page) {
    page.SameOrigin? || OriginAllowed(Some(page.origin))
  }

  /** A character Node's HTTP parser accepts in a header value: tab, visible ASCII, space, or U+0080 to U+00FF. */
  predicate FieldChar(c: char) {
    c == '\t' || (0x20 <= c as int <= 0x7E) || (0x80 <= c as int <= 0xFF)
  }

  predicate ParserAccepts(v: string) {
    forall k :: 0 <= k < |v| ==> FieldChar(v[k])
  }

  /** Both header values of the request pass Node's parser. */
  predicate Parses(req: Request) {
    ParserAccepts(HeaderText(req.apiKey)) && ParserAccepts(HeaderText(req.lang))
  }

  /** The reply Fastify's default client-error handler writes when Node's parser rejects a request. */
  const BadRequest: HttpResponse :=
    HttpResponse(400, false, "Bad Request", Some(ResponseBody(None, Some("Bad Request"), None)))

  /**
   * One submission: read the form, call the server, show the outcome. A
   * refused preflight and a TypeError from `fetch` reach the handler's
   * `catch` block. A request Node's parser rejects gets the plain 400 reply,
   * which carries no CORS headers, so only a same-origin page sees it.
   */
  function Submit(allowedKeys: Option<string>, page: Page, f: FormFields): Outcome {
    if !Admitted(page) then Thrown
    else
      match ClientRequest(ReadForm(f))
      case None => Thrown
      case Some(req) =>
        if Parses(req) then HandleResponse(Deliver(Analyze(allowedKeys, req)))
        else if page.CrossOrigin? then Thrown
        else HandleResponse(BadRequest)
  }

  /**
   * The outcome of every submission:
   * - a page on a refused origin, or a key or language `fetch` refuses to
   *   send, ends in the `catch` block;
   * - a sent value Node's parser rejects shows "Error: Bad Request" on the
   *   API's own origin and ends in the `catch` block elsewhere;
   * - a request that reaches the handler with a key the allow-list does not
   *   hold, in particular a missing or empty key field, shows
   *   "Error: unauthorized";
   * - an accepted key shows exactly the rendering of the server's document,
   *   and the form's mode (or "summary" when the field is missing) is echoed
   *   verbatim.
   */
  lemma SubmitOutcome(allowedKeys: Option<string>, page: Page, f: FormFields)
    ensures !Admitted(page) ==> Submit(allowedKeys, page, f) == Thrown
    ensures var inp := ReadForm(f);
      SendHeader(inp.key).None? || SendHeader(inp.lang).None? ==> Submit(allowedKeys, page, f) == Thrown
    ensures var inp := ReadForm(f); var key := SendHeader(inp.key); var lang := SendHeader(inp.lang);
      Admitted(page) && key.Some? && lang.Some? && !(ParserAccepts(key.value) && ParserAccepts(lang.value)) ==>
        Submit(allowedKeys, page, f) == if page.SameOrigin? then Shown(Alert(ErrorLabel + "Bad Request")) else Thrown
    ensures var inp := ReadForm(f); var key := SendHeader(inp.key); var lang := SendHeader(inp.lang);
      Admitted(page) && key.Some? && lang.Some? && ParserAccepts(key.value) && ParserAccepts(lang.value)
      && !IsAuthorized(allowedKeys, Single(key.value)) ==>
        Submit(allowedKeys, page, f) == Shown(Alert(ErrorLabel + "unauthorized"))
    ensures var lang := SendHeader(ReadForm(f).lang);
      Admitted(page) && (f.key.None? || f.key == Some("")) && lang.Some? && ParserAccepts(lang.value) ==>
        Submit(allowedKeys, page, f) == Shown(Alert(ErrorLabel + "unauthorized"))
    ensures var inp := ReadForm(f); var key := SendHeader(inp.key); var lang := SendHeader(inp.lang);
      Admitted(page) && key.Some? && lang.Some? && ParserAccepts(key.value) && ParserAccepts(lang.value)
      && IsAuthorized(allowedKeys, Single(key.value)) ==>
        && ClientRequest(inp).Some?
        && var reply := Analyze(allowedKeys, ClientRequest(inp).value);
           && reply.payload.AnalysisPayload?
           && reply.payload.mode == inp.mode
           && (f.mode.None? ==> reply.payload.mode == "summary")
           && Submit(allowedKeys, page, f) == Shown(RenderMarkdown(reply.payload.data))
  {
    SubmitBlocked(allowedKeys, page, f);
    SubmitRefused(allowedKeys, page, f);
    SubmitAccepted(allowedKeys, page, f);
  }

  /** The cases of `SubmitOutcome` in which the handler never runs. */
  lemma SubmitBlocked(allowedKeys: Option<string>, page: Page, f: FormFields)
    ensures !Admitted(page) ==> Submit(allowedKeys, page, f) == Thrown
    ensures var inp := ReadForm(f);
      SendHeader(inp.key).None? || SendHeader(inp.lang).None? ==> Submit(allowedKeys, page, f) == Thrown
    ensures var inp := ReadForm(f); var key := SendHeader(inp.key); var lang := SendHeader(inp.lang);
      Admitted(page) && key.Some? && lang.Some? && !(ParserAccepts(key.value) && ParserAccepts(lang.value)) ==>
        Submit(allowedKeys, page, f) == if page.SameOrigin? then Shown(Alert(ErrorLabel + "Bad Request")) else Thrown
  {
    var inp := ReadForm(f);
    if SendHeader(inp.key).Some? && SendHeader(inp.lang).Some? {
      RequestSent(inp);
    }
    BadRequestShown();
  }

  /** Fastify's 400 reply shows its `error` field. */
  lemma BadRequestShown()
    ensures HandleResponse(BadRequest) == Shown(Alert(ErrorLabel + "Bad Request"))
  {
  }

  /** The refusal cases of `SubmitOutcome`. */
  lemma SubmitRefused(allowedKeys: Option<string>, page: Page, f: FormFields)
    ensures var inp := ReadForm(f); var key := SendHeader(inp.key); var lang := SendHeader(inp.lang);
      Admitted(page) && key.Some? && lang.Some? && ParserAccepts(key.value) && ParserAccepts(lang.value)
      && !IsAuthorized(allowedKeys, Single(key.value)) ==>
        Submit(allowedKeys, page, f) == Shown(Alert(ErrorLabel + "unauthorized"))
    ensures var lang := SendHeader(ReadForm(f).lang);
      Admitted(page) && (f.key.None? || f.key == Some("")) && lang.Some? && ParserAccepts(lang.value) ==>
        Submit(allowedKeys, page, f) == Shown(Alert(ErrorLabel + "unauthorized"))
  {
    var inp := ReadForm(f);
    if f.key.None? || f.key == Some("") {
      assert inp.key == "";
      SendValid("");
    }
    if Admitted(page) && SendHeader(inp.key).Some? && SendHeader(inp.lang).Some? {
      RequestSent(inp);
      if Parses(ClientRequest(inp).value) {
        GetsThrough(allowedKeys, page, f);
        ReplyShown(allowedKeys, ClientRequest(inp).value);
      }
    }
  }

  /** The acceptance case of `SubmitOutcome`. */
  lemma SubmitAccepted(allowedKeys: Option<string>, page: Page, f: FormFields)
    ensures var inp := ReadForm(f); var key := SendHeader(inp.key); var lang := SendHeader(inp.lang);
      Admitted(page) && key.Some? && lang.Some? && ParserAccepts(key.value) && ParserAccepts(lang.value)
      && IsAuthorized(allowedKeys, Single(key.value)) ==>
        && ClientRequest(inp).Some?
        && var reply := Analyze(allowedKeys, ClientRequest(inp).value);
           && reply.payload.AnalysisPayload?
           && reply.payload.mode == inp.mode
           && Submit(allowedKeys, page, f) == Shown(RenderMarkdown(reply.payload.data))
  {
    var inp := ReadForm(f);
    if Admitted(page) && SendHeader(inp.key).Some? && SendHeader(inp.lang).Some? {
      RequestSent(inp);
      var req := ClientRequest(inp).value;
      assert req.body == Some(AnalyzeBody(Some(inp.url), Some(inp.mode)));
      if Parses(req) {
        GetsThrough(allowedKeys, page, f);
        ReplyShown(allowedKeys, req);
      }
    }
  }

  /** A request that is admitted, sent and parsed is answered by the handler. */
  lemma GetsThrough(allowedKeys: Option<string>, page: Page, f: FormFields)
    requires Admitted(page) && ClientRequest(ReadForm(f)).Some? && Parses(ClientRequest(ReadForm(f)).value)
    ensures Submit(allowedKeys, page, f) == HandleResponse(Deliver(Analyze(allowedKeys, ClientRequest(ReadForm(f)).value)))
  {
  }

  /** What the client shows for the server's answer to a request that reached the handler. */
  lemma ReplyShown(allowedKeys: Option<string>, req: Request)
    ensures !IsAuthorized(allowedKeys, req.apiKey) ==>
      HandleResponse(Deliver(Analyze(allowedKeys, req))) == Shown(Alert(ErrorLabel + "unauthorized"))
    ensures IsAuthorized(allowedKeys, req.apiKey) ==>
      && Analyze(allowedKeys, req).payload.AnalysisPayload?
      && HandleResponse(Deliver(Analyze(allowedKeys, req))) == Shown(RenderMarkdown(Analyze(allowedKeys, req).payload.data))
  {
    var reply := Analyze(allowedKeys, req);
    if !IsAuthorized(allowedKeys, req.apiKey) {
      assert reply == Reply(401, ErrorPayload("unauthorized"));
    } else {
      DeliveredDocument(reply);
    }
  }

  /** A successful analysis reply reaches the renderer with its document as `data`. */
  lemma DeliveredDocument(reply: Reply)
    requires reply.status == 200 && reply.payload.AnalysisPayload?
    ensures HandleResponse(Deliver(reply)) == Shown(RenderMarkdown(reply.payload.data))
  {
    var body := ResponseBody(None, None, Some(reply.payload.data));
    assert Deliver(reply) == HttpResponse(200, true, "OK", Some(body));
  }

  /** Whitespace around the key field changes nothing: the browser trims it before sending. */
  lemma SubmitIgnoresPadding(allowedKeys: Option<string>, page: Page, f: FormFields, a: string, k: string, b: string)
    requires AllWhitespace(a) && AllWhitespace(b) && ValidValue(k)
    ensures Submit(allowedKeys, page, f.(key := Some(a + k + b))) == Submit(allowedKeys, page, f.(key := Some(k)))
  {
    var padded := f.(key := Some(a + k + b));
    var bare := f.(key := Some(k));
    SendPadded(a, k, b);
    SendValid(k);
    SameSentKey(ReadForm(padded), ReadForm(bare));
    SameRequest(allowedKeys, page, padded, bare);
  }

  /** Two inputs whose keys `fetch` sends alike make the same request. */
  lemma SameSentKey(inp: FormInput, other: FormInput)
    requires inp.(key := other.key) == other && SendHeader(inp.key) == SendHeader(other.key)
    ensures ClientRequest(inp) == ClientRequest(other)
  {
  }

  /** The outcome depends on the form only through the request it makes. */
  lemma SameRequest(allowedKeys: Option<string>, page: Page, f: FormFields, g: FormFields)
    requires ClientRequest(ReadForm(f)) == ClientRequest(ReadForm(g))
    ensures Submit(allowedKeys, page, f) == Submit(allowedKeys, page, g)
  {
  }

  /** A key with a character above U+00FF is never sent: the handler shows the network-error notice. */
  lemma WideKeyThrows(allowedKeys: Option<string>, page: Page, f: FormFields, i: nat)
    requires f.key.Some? && i < |f.key.value| && f.key.value[i] as int > 0xFF
    ensures Submit(allowedKeys, page, f) == Thrown
  {
    assert !IsByteString(ReadForm(f).key);
  }

  /**
   * A key with an inner control character is sent by `fetch` but rejected by
   * Node's parser, so a same-origin page shows "Error: Bad Request".
   */
  lemma ControlCharacterKey(allowedKeys: Option<string>)
    ensures Submit(allowedKeys, SameOrigin, FormFields(None, None, None, Some("a\U{1}b")))
      == Shown(Alert(ErrorLabel + "Bad Request"))
  {
    ControlKeySent();
    SubmitBlocked(allowedKeys, SameOrigin, FormFields(None, None, None, Some("a\U{1}b")));
  }

  /** `fetch` sends the key with U+0001 inside, and Node's parser rejects it. */
  lemma ControlKeySent()
    ensures var inp := ReadForm(FormFields(None, None, None, Some("a\U{1}b")));
      SendHeader(inp.key) == Some("a\U{1}b") && SendHeader(inp.lang).Some? && !ParserAccepts("a\U{1}b")
  {
    ControlKeyValid();
    SendValid("a\U{1}b");
    SendValid("en");
  }

  lemma ControlKeyValid()
    ensures ValidValue("a\U{1}b") && ValidValue("en") && !ParserAccepts("a\U{1}b")
  {
    assert !FieldChar("a\U{1}b"[1]);
  }

  /**
   * The language the client picks reaches the server: once the request gets
   * through with an accepted key, a form whose `lang` field is "es" is shown
   * the Spanish document, and a form without the field the English one.
   */
  lemma SubmitLanguage(allowedKeys: Option<string>, page: Page, f: FormFields)
    requires Admitted(page)
    requires SendHeader(ReadForm(f).key).Some? && ParserAccepts(SendHeader(ReadForm(f).key).value)
    requires IsAuthorized(allowedKeys, Single(SendHeader(ReadForm(f).key).value))
    ensures f.lang == Some("es") ==>
      && ClientRequest(ReadForm(f)).Some?
      && var doc := Analyze(allowedKeys, ClientRequest(ReadForm(f)).value).payload.data;
         HasPrefix(doc, EsTitle) && Submit(allowedKeys, page, f) == Shown(RenderMarkdown(doc))
    ensures f.lang.None? ==>
      && ClientRequest(ReadForm(f)).Some?
      && var doc := Analyze(allowedKeys, ClientRequest(ReadForm(f)).value).payload.data;
         HasPrefix(doc, EnTitle) && Submit(allowedKeys, page, f) == Shown(RenderMarkdown(doc))
  {
    if f.lang == Some("es") {
      SentLanguage(allowedKeys, ReadForm(f), "es");
      SubmitAccepted(allowedKeys, page, f);
    } else if f.lang.None? {
      SentLanguage(allowedKeys, ReadForm(f), "en");
      SubmitAccepted(allowedKeys, page, f);
    }
  }

  /** A language value that needs no trimming reaches the server as it is. */
  lemma SentLanguage(allowedKeys: Option<string>, inp: FormInput, lang: string)
    requires SendHeader(inp.key).Some? && IsAuthorized(allowedKeys, Single(SendHeader(inp.key).value))
    requires inp.lang == lang && (lang == "es" || lang == "en")
    ensures SendHeader(lang) == Some(lang) && ParserAccepts(lang)
    ensures ClientRequest(inp).Some?
    ensures lang == "es" ==> HasPrefix(Analyze(allowedKeys, ClientRequest(inp).value).payload.data, EsTitle)
    ensures lang == "en" ==> HasPrefix(Analyze(allowedKeys, ClientRequest(inp).value).payload.data, EnTitle)
  {
    LanguageCodes();
    SendValid(lang);
    RequestSent(inp);
    AnalyzeTitle(allowedKeys, ClientRequest(inp).value);
  }

  /** The request carries the two header values as `fetch` sends them. */
  lemma RequestSent(inp: FormInput)
    requires SendHeader(inp.key).Some? && SendHeader(inp.lang).Some?
    ensures ClientRequest(inp).Some?
    ensures ClientRequest(inp).value.apiKey == Single(SendHeader(inp.key).value)
    ensures HeaderText(ClientRequest(inp).value.apiKey) == SendHeader(inp.key).value
    ensures HeaderText(ClientRequest(inp).value.lang) == SendHeader(inp.lang).value
  {
  }

  lemma LanguageCodes()
    ensures ToLower("es") == "es" && ToLower("en") != "es"
    ensures ParserAccepts("es") && ParserAccepts("en")
    ensures ValidValue("es") && ValidValue("en")
  {
    assert ToLower("en")[1] == 'n';
  }
}

=== FILE: fetch.dfy ===
/**
 * What `fetch` does with a request header given as a string. Web IDL's
 * ByteString conversion throws a TypeError for a character above U+00FF. The
 * Fetch Standard then normalizes the value (strips HTTP whitespace from both
 * ends) and throws a TypeError when the result still holds NUL, LF or CR.
 */
module Fetch {
  import opened Wrappers

  /** HTTP whitespace: tab, line feed, carriage return and space. */
  predicate HttpWhitespace(c: char) {
    c == '\t' || c == '\n' || c == '\r' || c == ' '
  }

  predicate AllWhitespace(s: string) {
    forall k :: 0 <= k < |s| ==> HttpWhitespace(s[k])
  }

  /** Every character fits in one byte. */
  predicate IsByteString(s: string) {
    forall k :: 0 <= k < |s| ==> s[k] as int <= 0xFF
  }

  /** The characters a header value may not contain anywhere: NUL, LF and CR. */
  predicate Forbidden(c: char) {
    c == '\0' || c == '\n' || c == '\r'
  }

  /** A header value `fetch` sends as it is: bytes only, no NUL, LF or CR, no whitespace at either end. */
  predicate ValidValue(v: string) {
    && IsByteString(v)
    && (forall k :: 0 <= k < |v| ==> !Forbidden(v[k]))
    && (|v| == 0 || (!HttpWhitespace(v[0]) && !HttpWhitespace(v[|v| - 1])))
  }

  /** The length of the leading run of whitespace. */
  function LeadingSpace(s: string): (n: nat)
    ensures n <= |s|
    ensures forall k :: 0 <= k < n ==> HttpWhitespace(s[k])
    ensures n < |s| ==> !HttpWhitespace(s[n])
  {
    if |s| == 0 || !HttpWhitespace(s[0]) then 0 else 1 + LeadingSpace(s[1..])
  }

  /** The length of the trailing run of whitespace. */
  function TrailingSpace(s: string): (n: nat)
    ensures n <= |s|
    ensures forall k :: |s| - n <= k < |s| ==> HttpWhitespace(s[k])
    ensures n < |s| ==> !HttpWhitespace(s[|s| - n - 1])
  {
    if |s| == 0 || !HttpWhitespace(s[|s| - 1]) then 0 else 1 + TrailingSpace(s[..|s| - 1])
  }

  /**
   * Normalizing a header value: HTTP whitespace is removed from both ends.
   * The result has no whitespace at either end, and it is empty only when the
   * input was all whitespace.
   */
  function Trim(s: string): (t: string)
    ensures |t| <= |s|
    ensures |t| == 0 || (!HttpWhitespace(t[0]) && !HttpWhitespace(t[|t| - 1]))
    ensures t == "" <==> AllWhitespace(s)
  {
    var i := LeadingSpace(s);
    if i == |s| then ""
    else
      var j := |s| - TrailingSpace(s);
      assert i < j;
      s[i..j]
  }

  /**
   * Trimming removes exactly the surrounding whitespace: a value without
   * whitespace at its ends, padded with whitespace, is trimmed back to itself.
   */
  lemma TrimPadded(a: string, v: string, b: string)
    requires AllWhitespace(a) && AllWhitespace(b)
    requires |v| == 0 || (!HttpWhitespace(v[0]) && !HttpWhitespace(v[|v| - 1]))
    ensures Trim(a + v + b) == v
  {
    var s := a + v + b;
    if |v| == 0 {
      assert AllWhitespace(s);
    } else {
      assert s[|a|] == v[0];
      assert s[|s| - |b| - 1] == v[|v| - 1];
      var i := LeadingSpace(s);
      var n := TrailingSpace(s);
      assert i == |a|;
      assert n == |b|;
      assert s[|a|..|s| - |b|] == v;
    }
  }

  /**
   * The header value `fetch` sends for a string, or `None` when it throws a
   * TypeError instead: a character above U+00FF anywhere, or NUL, LF or CR
   * left after trimming.
   */
  function SendHeader(s: string): (r: Option<string>)
    ensures r.Some? ==> ValidValue(r.value)
    ensures !IsByteString(s) ==> r.None?
  {
    if !IsByteString(s) then None
    else
      var t := Trim(s);
      if forall k :: 0 <= k < |t| ==> !Forbidden(t[k]) then Some(t) else None
  }

  /**
   * Padding a value with whitespace does not change what is sent: the value
   * itself when it is valid, and a TypeError otherwise.
   */
  lemma SendPadded(a: string, v: string, b: string)
    requires AllWhitespace(a) && AllWhitespace(b)
    requires |v| == 0 || (!HttpWhitespace(v[0]) && !HttpWhitespace(v[|v| - 1]))
    ensures SendHeader(a + v + b) == if ValidValue(v) then Some(v) else None
  {
    var s := a + v + b;
    TrimPadded(a, v, b);
    assert IsByteString(s) <==> IsByteString(v) by {
      if IsByteString(v) {
        forall k | 0 <= k < |s|
          ensures s[k] as int <= 0xFF
        {
          if k >= |a| && k < |a| + |v| {
            assert s[k] == v[k - |a|];
          }
        }
      }
      if IsByteString(s) {
        forall k | 0 <= k < |v|
          ensures v[k] as int <= 0xFF
        {
          assert v[k] == s[|a| + k];
        }
      }
    }
  }

  /** A valid value is sent unchanged. */
  lemma SendValid(v: string)
    requires ValidValue(v)
    ensures SendHeader(v) == Some(v)
  {
    SendPadded("", v, "");
    assert "" + v + "" == v;
  }
}

=== FILE: render.dfy ===
/**
 * The web client's `renderMarkdown`: the Markdown text is HTML-escaped by
 * three global replacements (`&` first, then `<`, then `>`) and wrapped in a
 * `<pre class="markdown">` element. No Markdown syntax is interpreted.
 */
module Render {
  import opened Text

  const Amp: string := "&amp;"
  const Lt: string := "&lt;"
  const Gt: string := "&gt;"

  /** The three characters the renderer escapes. */
  predicate Special(c: char) {
    c == '&' || c == '<' || c == '>'
  }

  /** What one character of the input becomes in the output. */
  function EscapeChar(c: char): (e: string)
    ensures |e| >= 1
  {
    if c == '&' then Amp else if c == '<' then Lt else if c == '>' then Gt else [c]
  }

  /**
   * Character-by-character escaping: the reference meaning of the three
   * replacements. No raw angle bracket survives, and the length grows by 4 per
   * `&` and by 3 per `<` or `>`.
   */
  function EscapeEach(md: string): (esc: string)
    ensures '<' !in esc && '>' !in esc
    ensures |esc| == |md| + 4 * Count(md, '&') + 3 * Count(md, '<') + 3 * Count(md, '>')
  {
    if |md| == 0 then ""
    else EscapeChar(md[0]) + EscapeEach(md[1..])
  }

  /**
   * The escaping exactly as written in `renderMarkdown`: replace every `&` by
   * `&amp;`, then every `<` by `&lt;`, then every `>` by `&gt;`. Because `&`
   * goes first, the `&` of the entities added later is never escaped again,
   * so the result equals character-by-character escaping.
   */
  function Escape(md: string): (esc: string)
    ensures esc == EscapeEach(md)
  {
    SequentialIsPerChar(md);
    ReplaceAll(ReplaceAll(ReplaceAll(md, '&', Amp), '<', Lt), '>', Gt)
  }

  /** The three passes applied to the image of one character. */
  lemma PassesOnOneChar(c: char)
    ensures ReplaceAll(ReplaceAll(ReplaceAll([c], '&', Amp), '<', Lt), '>', Gt) == EscapeChar(c)
  {
    var r1 := ReplaceAll([c], '&', Amp);
    assert r1 == (if c == '&' then Amp else [c]);
    var r2 := ReplaceAll(r1, '<', Lt);
    if c == '&' {
      ReplaceAllAbsent(Amp, '<', Lt);
      ReplaceAllAbsent(Amp, '>', Gt);
    } else if c == '<' {
      assert r2 == Lt;
      ReplaceAllAbsent(Lt, '>', Gt);
    } else {
      assert r2 == [c];
    }
  }

  lemma {:induction false} SequentialIsPerChar(md: string)
    ensures ReplaceAll(ReplaceAll(ReplaceAll(md, '&', Amp), '<', Lt), '>', Gt) == EscapeEach(md)
  {
    if |md| > 0 {
      var c := md[0];
      var rest := md[1..];
      assert md == [c] + rest;
      ReplaceAllAppend([c], rest, '&', Amp);
      var a1 := ReplaceAll([c], '&', Amp);
      var b1 := ReplaceAll(rest, '&', Amp);
      ReplaceAllAppend(a1, b1, '<', Lt);
      var a2 := ReplaceAll(a1, '<', Lt);
      var b2 := ReplaceAll(b1, '<', Lt);
      ReplaceAllAppend(a2, b2, '>', Gt);
      PassesOnOneChar(c);
      SequentialIsPerChar(rest);
    }
  }

  /** Escaping distributes over concatenation. */
  lemma {:induction false} EscapeAppend(a: string, b: string)
    ensures EscapeEach(a + b) == EscapeEach(a) + EscapeEach(b)
  {
    if |a| == 0 {
      assert a + b == b;
    } else {
      assert (a + b)[0] == a[0] && (a + b)[1..] == a[1..] + b;
      EscapeAppend(a[1..], b);
    }
  }

  /** The entity starting at position `i` of `s`, if any. */
  predicate EntityAt(s: string, i: nat)
    requires i <= |s|
  {
    HasPrefix(s[i..], Amp) || HasPrefix(s[i..], Lt) || HasPrefix(s[i..], Gt)
  }

  /** Inside an entity only the first character is `&`. */
  lemma EntityAmpersandFirst()
    ensures forall k :: 0 < k < |Amp| ==> Amp[k] != '&'
    ensures forall k :: 0 < k < |Lt| ==> Lt[k] != '&'
    ensures forall k :: 0 < k < |Gt| ==> Gt[k] != '&'
  {
  }

  /** An `&` inside the image of one character is the start of an entity. */
  lemma AmpersandInImage(c: char, rest: string, i: nat)
    requires i < |EscapeChar(c)| && EscapeChar(c)[i] == '&'
    ensures i == 0 && EntityAt(EscapeChar(c) + rest, 0)
  {
    var e := EscapeChar(c);
    EntityAmpersandFirst();
    PrefixOfConcat(e, rest);
    assert (e + rest)[0..] == e + rest;
  }

  /** Every `&` of `s` begins one of the three entities. */
  predicate AmpersandsAreEntities(s: string) {
    forall i :: 0 <= i < |s| && s[i] == '&' ==> EntityAt(s, i)
  }

  /** Every `&` of the escaped text begins `&amp;`, `&lt;` or `&gt;`. */
  lemma {:induction false} AmpersandsBeginEntities(md: string)
    ensures AmpersandsAreEntities(EscapeEach(md))
  {
    if |md| > 0 {
      var e := EscapeChar(md[0]);
      var rest := EscapeEach(md[1..]);
      var esc := EscapeEach(md);
      assert esc == e + rest;
      AmpersandsBeginEntities(md[1..]);
      forall i | 0 <= i < |esc| && esc[i] == '&'
        ensures EntityAt(esc, i)
      {
        if i >= |e| {
          assert esc[i..] == rest[i - |e|..];
          assert rest[i - |e|] == '&';
          assert EntityAt(rest, i - |e|);
        } else {
          assert e[i] == '&';
          AmpersandInImage(md[0], rest, i);
        }
      }
    }
  }

  /** Decoding the three entities; every other character is kept. */
  function Unescape(s: string): string
    decreases |s|
  {
    if |s| == 0 then ""
    else if HasPrefix(s, Amp) then "&" + Unescape(s[|Amp|..])
    else if HasPrefix(s, Lt) then "<" + Unescape(s[|Lt|..])
    else if HasPrefix(s, Gt) then ">" + Unescape(s[|Gt|..])
    else [s[0]] + Unescape(s[1..])
  }

  lemma UnescapeAmp(rest: string)
    ensures Unescape(Amp + rest) == "&" + Unescape(rest)
  {
    var s := Amp + rest;
    assert s[..|Amp|] == Amp && s[|Amp|..] == rest;
  }

  lemma UnescapeLt(rest: string)
    ensures Unescape(Lt + rest) == "<" + Unescape(rest)
  {
    var s := Lt + rest;
    assert s[1] == 'l';
    assert !HasPrefix(s, Amp);
    assert s[..|Lt|] == Lt && s[|Lt|..] == rest;
  }

  lemma UnescapeGt(rest: string)
    ensures Unescape(Gt + rest) == ">" + Unescape(rest)
  {
    var s := Gt + rest;
    assert s[1] == 'g';
    assert !HasPrefix(s, Amp) && !HasPrefix(s, Lt);
    assert s[..|Gt|] == Gt && s[|Gt|..] == rest;
  }

  lemma UnescapePlain(c: char, rest: string)
    requires c != '&'
    ensures Unescape([c] + rest) == [c] + Unescape(rest)
  {
    var s := [c] + rest;
    assert s[0] == c;
    assert !HasPrefix(s, Amp) && !HasPrefix(s, Lt) && !HasPrefix(s, Gt);
    assert s[1..] == rest;
  }

  /** Decoding an entity (or an ordinary character) in front of more text. */
  lemma UnescapeImage(c: char, rest: string)
    ensures Unescape(EscapeChar(c) + rest) == [c] + Unescape(rest)
  {
    if c == '&' {
      UnescapeAmp(rest);
    } else if c == '<' {
      UnescapeLt(rest);
    } else if c == '>' {
      UnescapeGt(rest);
    } else {
      UnescapePlain(c, rest);
    }
  }

  /** Decoding the entities of the escaped text gives back the original text. */
  lemma {:induction false} UnescapeEscape(md: string)
    ensures Unescape(EscapeEach(md)) == md
  {
    if |md| > 0 {
      assert EscapeEach(md) == EscapeChar(md[0]) + EscapeEach(md[1..]);
      UnescapeImage(md[0], EscapeEach(md[1..]));
      UnescapeEscape(md[1..]);
      assert [md[0]] + md[1..] == md;
    }
  }

  /** Text without special characters is left unchanged. */
  lemma {:induction false} PlainUnchanged(md: string)
    requires forall i :: 0 <= i < |md| ==> !Special(md[i])
    ensures EscapeEach(md) == md
  {
    if |md| > 0 {
      PlainUnchanged(md[1..]);
      assert [md[0]] + md[1..] == md;
    }
  }

  /** The middle part of a three-part concatenation sits right after the first. */
  lemma ImageAt(a: string, e: string, b: string)
    requires |e| >= 1
    ensures |a| + |e| <= |a + (e + b)|
    ensures (a + (e + b))[|a|..|a| + |e|] == e
    ensures (a + (e + b))[|a|] == e[0]
  {
  }

  /**
   * The image of `md[i]` sits in the escaped text right after the image of
   * `md[..i]`; in particular an ordinary character appears unchanged there.
   */
  lemma CharacterImage(md: string, i: nat)
    requires i < |md|
    ensures var p := |EscapeEach(md[..i])|; var e := EscapeChar(md[i]);
      && p + |e| <= |EscapeEach(md)|
      && EscapeEach(md)[p..p + |e|] == e
      && (!Special(md[i]) ==> EscapeEach(md)[p] == md[i])
  {
    var e := EscapeChar(md[i]);
    EscapeAround(md, i);
    ImageAt(EscapeEach(md[..i]), e, EscapeEach(md[i + 1..]));
  }

  /** The escaped text splits into the images of `md[..i]`, of `md[i]` and of the rest. */
  lemma EscapeAround(md: string, i: nat)
    requires i < |md|
    ensures EscapeEach(md) == EscapeEach(md[..i]) + (EscapeChar(md[i]) + EscapeEach(md[i + 1..]))
  {
    AroundIndex(md, i);
    EscapeMiddle(md[..i], md[i], md[i + 1..]);
  }

  /** Escaping a text with one marked character in the middle. */
  lemma EscapeMiddle(a: string, c: char, b: string)
    ensures EscapeEach(a + ([c] + b)) == EscapeEach(a) + (EscapeChar(c) + EscapeEach(b))
  {
    var tail := [c] + b;
    EscapeAppend(a, tail);
    EscapeCons(tail);
    assert tail[0] == c && tail[1..] == b;
  }

  /** A non-empty text is escaped one character at a time from the front. */
  lemma EscapeCons(s: string)
    requires |s| > 0
    ensures EscapeEach(s) == EscapeChar(s[0]) + EscapeEach(s[1..])
  {
  }

  /** Images come in the order of the input: the image of a longer prefix is longer. */
  lemma ImagesInOrder(md: string, i: nat, j: nat)
    requires i < j <= |md|
    ensures |EscapeEach(md[..i])| < |EscapeEach(md[..j])|
  {
    assert md[..j] == md[..i] + md[i..j];
    EscapeAppend(md[..i], md[i..j]);
    EscapeCons(md[i..j]);
  }

  const PreOpen: string := "<pre class=\"markdown\">"
  const PreClose: string := "</pre>"

  /** Each tag of the element has its `<` in front only. */
  lemma TagsOpenOnce()
    ensures PreOpen[0] == '<' && '<' !in PreOpen[1..]
    ensures PreClose[0] == '<' && '<' !in PreClose[1..]
  {
  }

  /** Wrapping text free of `<` leaves only the two tag openings as `<`. */
  lemma WrappedAngles(esc: string)
    requires '<' !in esc
    ensures var html := PreOpen + esc + PreClose;
      forall i :: 0 <= i < |html| && html[i] == '<' ==> i == 0 || i == |html| - |PreClose|
  {
    var html := PreOpen + esc + PreClose;
    TagsOpenOnce();
  }

  /**
   * `renderMarkdown(md)`: the escaped text inside the `pre` element. The only
   * `<` characters of the result are the two of the element's own tags, so
   * the text cannot inject markup, and the text is recovered exactly by
   * taking the element's content and decoding the entities.
   */
  function RenderMarkdown(md: string): (html: string)
    ensures html == PreOpen + EscapeEach(md) + PreClose
    ensures HasPrefix(html, PreOpen) && HasSuffix(html, PreClose)
    ensures |html| == |PreOpen| + |md| + 4 * Count(md, '&') + 3 * Count(md, '<') + 3 * Count(md, '>') + |PreClose|
    ensures Unescape(html[|PreOpen|..|html| - |PreClose|]) == md
    ensures forall i :: 0 <= i < |html| && html[i] == '<' ==> i == 0 || i == |html| - |PreClose|
  {
    var esc := Escape(md);
    var html := PreOpen + esc + PreClose;
    assert html[..|PreOpen|] == PreOpen;
    assert html[|html| - |PreClose|..] == PreClose;
    assert html[|PreOpen|..|html| - |PreClose|] == esc;
    UnescapeEscape(md);
    WrappedAngles(esc);
    html
  }
}

=== FILE: server.dfy ===
/**
 * The `/api/analyze` handler: key check, language and mode resolution, and
 * assembly of the placeholder Markdown document. Headers and the parsed
 * request body are parameters; the allow-list is passed in explicitly.
 */
module Server {
  import opened Wrappers
  import opened Text
  import opened Auth

  /** The two supported languages. */
  datatype Lang = En | Es

  /** `(h['x-lang'] ?? '').toString()`: a list value is joined with commas. */
  function HeaderText(h: HeaderValue): string {
    match h
    case Absent => ""
    case Single(s) => s
    case Multi(xs) => Join(xs, ",")
  }

  /** Lower-casing turns a two-letter string into "es" exactly for the four spellings of it. */
  lemma LowerIsEs(s: string)
    ensures ToLower(s) == "es" <==> s in {"es", "eS", "Es", "ES"}
  {
    if ToLower(s) == "es" {
      assert |s| == 2 && LowerChar(s[0]) == 'e' && LowerChar(s[1]) == 's';
      assert s == [s[0], s[1]];
    }
  }

  /**
   * `getLang`: Spanish exactly when the lower-cased header text is "es";
   * every other value, including an absent header, means English.
   */
  function GetLang(h: HeaderValue): (lang: Lang)
    ensures lang == Es <==> HeaderText(h) in {"es", "eS", "Es", "ES"}
    ensures h.Absent? ==> lang == En
  {
    LowerIsEs(HeaderText(h));
    if ToLower(HeaderText(h)) == "es" then Es else En
  }

  /** The four fixed Markdown fragments of one language. */
  datatype Sections = Sections(title: string, tldr: string, keyPoints: string, sources: string)

  const EnTitle: string := "# News Helper (Stub)"
  const EnTldr: string := "## TL;DR\nThis is a placeholder response. Real analysis will appear here."
  const EnKeyPoints: string := "## Key Points\n- Paste a valid URL\n- Choose a mode\n- Get Markdown output"
  const EnSources: string := "## Sources\n- (live search & citations will go here)"
  const EsTitle: string := "# News Helper (Borrador)"
  const EsTldr: string := "## Resumen\nEsta es una respuesta de prueba. El análisis real aparecerá aquí."
  const EsKeyPoints: string := "## Puntos clave\n- Pega un URL válido\n- Elige un modo\n- Obtén salida en Markdown"
  const EsSources: string := "## Fuentes\n- (la búsqueda en vivo y citas irán aquí)"

  /** The fragments of a language: `sections[lang]`. */
  function SectionsFor(lang: Lang): Sections {
    match lang
    case En => Sections(EnTitle, EnTldr, EnKeyPoints, EnSources)
    case Es => Sections(EsTitle, EsTldr, EsKeyPoints, EsSources)
  }

  /** `## Mode: <mode>` or `## Modo: <mode>`; the mode is interpolated verbatim. */
  function ModeHeading(lang: Lang, mode: string): (heading: string)
    ensures heading != ""
  {
    (if lang == Es then "## Modo: " else "## Mode: ") + mode
  }

  /** `**Article:** <url>` / `**Artículo:** <url>`, or "" when the URL is empty. */
  function UrlLine(lang: Lang, url: string): (line: string)
    ensures line != "" <==> url != ""
  {
    if url == "" then ""
    else (if lang == Es then "**Artículo:** " else "**Article:** ") + url
  }

  /** The blank line that separates blocks. */
  const Gap: string := "\n\n"

  /** Every fixed fragment is non-empty, so filtering can only drop the URL line. */
  predicate Filled(sec: Sections) {
    sec.title != "" && sec.tldr != "" && sec.keyPoints != "" && sec.sources != ""
  }

  lemma SectionsFilled(lang: Lang)
    ensures Filled(SectionsFor(lang))
  {
    assert |EnTitle| > 0 && |EnTldr| > 0 && |EnKeyPoints| > 0 && |EnSources| > 0;
    assert |EsTitle| > 0 && |EsTldr| > 0 && |EsKeyPoints| > 0 && |EsSources| > 0;
  }

  /**
   * `[title, heading, line, tldr, key, sources].filter(Boolean).join('\n\n')`:
   * the blocks with exactly one blank line between neighbours, and no trace of
   * the URL line when it is empty.
   */
  function Document(sec: Sections, heading: string, line: string): (md: string)
    requires Filled(sec) && heading != ""
    ensures md == sec.title + Gap + heading + (if line != "" then Gap + line else "")
                  + Gap + sec.tldr + Gap + sec.keyPoints + Gap + sec.sources
  {
    FilterSix(sec.title, heading, line, sec.tldr, sec.keyPoints, sec.sources);
    JoinSix(sec.title, heading, line, sec.tldr, sec.keyPoints, sec.sources, Gap);
    JoinFive(sec.title, heading, sec.tldr, sec.keyPoints, sec.sources, Gap);
    Join(FilterNonEmpty([sec.title, heading, line, sec.tldr, sec.keyPoints, sec.sources]), Gap)
  }

  /**
   * The Markdown document of the handler: title, mode heading, the URL line
   * only when the URL is non-empty, TL;DR, key points and sources.
   */
  function Markdown(lang: Lang, mode: string, url: string): (md: string)
    ensures
      var sec := SectionsFor(lang);
      md == sec.title + Gap + ModeHeading(lang, mode)
            + (if url != "" then Gap + UrlLine(lang, url) else "")
            + Gap + sec.tldr + Gap + sec.keyPoints + Gap + sec.sources
  {
    SectionsFilled(lang);
    Document(SectionsFor(lang), ModeHeading(lang, mode), UrlLine(lang, url))
  }

  /** The document starts with the title, a blank line and the mode heading. */
  lemma DocumentOpening(sec: Sections, heading: string, line: string)
    requires Filled(sec) && heading != ""
    ensures HasPrefix(Document(sec, heading, line), sec.title + Gap + heading)
  {
    var head := sec.title + Gap + heading;
    var tail := (if line != "" then Gap + line else "") + Gap + sec.tldr + Gap + sec.keyPoints + Gap + sec.sources;
    assert Document(sec, heading, line) == head + tail;
    PrefixOfConcat(head, tail);
  }

  /** The handler's document starts with the language's title, then the mode heading as the second block. */
  lemma MarkdownOpening(lang: Lang, mode: string, url: string)
    ensures HasPrefix(Markdown(lang, mode, url), SectionsFor(lang).title + Gap + ModeHeading(lang, mode))
  {
    SectionsFilled(lang);
    DocumentOpening(SectionsFor(lang), ModeHeading(lang, mode), UrlLine(lang, url));
  }

  /** The parsed JSON body `{ url?, mode? }`. */
  datatype AnalyzeBody = AnalyzeBody(url: Option<string>, mode: Option<string>)

  /** What the handler reads from a request: the two headers and the optional body. */
  datatype Request = Request(apiKey: HeaderValue, lang: HeaderValue, body: Option<AnalyzeBody>)

  /** `{ title, author, published, site }`, all `null` in this placeholder. */
  datatype Meta = Meta(title: Option<string>, author: Option<string>, published: Option<string>, site: Option<string>)

  const NullMeta: Meta := Meta(None, None, None, None)

  datatype Payload =
    | ErrorPayload(error: string)
    | AnalysisPayload(meta: Meta, mode: string, data: string)

  datatype Reply = Reply(status: int, payload: Payload)

  /** `body.mode ?? 'summary'` on `req.body ?? {}`: absent means "summary", anything present is kept. */
  function ResolveMode(body: Option<AnalyzeBody>): string {
    body.GetOr(AnalyzeBody(None, None)).mode.GetOr("summary")
  }

  /** `body.url ?? ''` on `req.body ?? {}`. */
  function ResolveUrl(body: Option<AnalyzeBody>): string {
    body.GetOr(AnalyzeBody(None, None)).url.GetOr("")
  }

  /**
   * The `/api/analyze` handler. An unauthorised request gets exactly
   * `401 {error: "unauthorized"}` and no document; an authorised one gets 200
   * with null metadata, the mode echoed verbatim, and the document for the
   * resolved language, mode and URL.
   */
  function Analyze(allowedKeys: Option<string>, req: Request): (r: Reply)
    ensures r.status == 401 <==> !IsAuthorized(allowedKeys, req.apiKey)
    ensures r.status == 401 ==> r.payload == ErrorPayload("unauthorized")
    ensures r.status != 401 ==> r.status == 200 && r.payload.AnalysisPayload?
    ensures r.payload.AnalysisPayload? ==>
      && r.payload.meta == NullMeta
      && (req.body.None? || req.body.value.mode.None? ==> r.payload.mode == "summary")
      && (req.body.Some? && req.body.value.mode.Some? ==> r.payload.mode == req.body.value.mode.value)
      && r.payload.data == Markdown(GetLang(req.lang), r.payload.mode, ResolveUrl(req.body))
  {
    if !IsAuthorized(allowedKeys, req.apiKey) then
      Reply(401, ErrorPayload("unauthorized"))
    else
      var lang := GetLang(req.lang);
      var mode := ResolveMode(req.body);
      var url := ResolveUrl(req.body);
      Reply(200, AnalysisPayload(NullMeta, mode, Markdown(lang, mode, url)))
  }

  /**
   * An authorised request's document begins with "# News Helper (Borrador)"
   * when `x-lang` is "es" in any letter case, and with "# News Helper (Stub)"
   * otherwise.
   */
  lemma AnalyzeTitle(allowedKeys: Option<string>, req: Request)
    requires IsAuthorized(allowedKeys, req.apiKey)
    ensures var p := Analyze(allowedKeys, req).payload;
      && p.AnalysisPayload?
      && (ToLower(HeaderText(req.lang)) == "es" ==> HasPrefix(p.data, EsTitle))
      && (ToLower(HeaderText(req.lang)) != "es" ==> HasPrefix(p.data, EnTitle))
  {
    var p := Analyze(allowedKeys, req).payload;
    var lang := GetLang(req.lang);
    var title := SectionsFor(lang).title;
    assert p.data == Markdown(lang, p.mode, ResolveUrl(req.body));
    MarkdownOpening(lang, p.mode, ResolveUrl(req.body));
    PrefixOfPrefix(p.data, title + Gap, ModeHeading(lang, p.mode));
    PrefixOfPrefix(p.data, title, Gap);
    assert lang == Es <==> ToLower(HeaderText(req.lang)) == "es";
  }
}

=== FILE: text.dfy ===
/**
 * The handful of JavaScript string operations the server and the client use,
 * over `string` (`seq<char>`): `split` on a one-character separator, `join`,
 * a global one-character `replace`, `endsWith` and `toLowerCase`.
 */
module Text {

  /** Number of occurrences of `c` in `s`. */
  function Count(s: string, c: char): nat {
    if |s| == 0 then 0 else (if s[0] == c then 1 else 0) + Count(s[1..], c)
  }

  /** `parts.join(sep)`: the parts with `sep` between neighbours. */
  function Join(parts: seq<string>, sep: string): string {
    if |parts| == 0 then ""
    else if |parts| == 1 then parts[0]
    else parts[0] + sep + Join(parts[1..], sep)
  }

  /**
   * `s.split(c)` for a one-character separator `c`. As in JavaScript the result
   * is never empty (`"".split(c)` is `[""]`), every separator starts a new
   * piece, no piece contains the separator, and joining the pieces back with
   * the separator gives `s`.
   */
  function Split(s: string, c: char): (r: seq<string>)
    ensures |r| == Count(s, c) + 1
    ensures forall i :: 0 <= i < |r| ==> c !in r[i]
    ensures Join(r, [c]) == s
  {
    if |s| == 0 then [""]
    else
      var rest := Split(s[1..], c);
      if s[0] == c then
        var r := [""] + rest;
        assert r[1..] == rest;
        assert s == [c] + s[1..];
        r
      else
        var r := [[s[0]] + rest[0]] + rest[1..];
        assert s == [s[0]] + s[1..];
        assert |rest| > 1 ==> r[1..] == rest[1..] && Join(rest, [c]) == rest[0] + [c] + Join(rest[1..], [c]);
        r
  }

  /** A string without the separator splits into itself alone. */
  lemma {:induction false} SplitNoSeparator(s: string, c: char)
    requires c !in s
    ensures Split(s, c) == [s]
  {
    if |s| > 0 {
      SplitNoSeparator(s[1..], c);
      assert [s[0]] + s[1..] == s;
    }
  }

  /** A separator-free prefix followed by the separator becomes the first piece. */
  lemma {:induction false} SplitAfterPrefix(a: string, c: char, b: string)
    requires c !in a
    ensures Split(a + [c] + b, c) == [a] + Split(b, c)
  {
    var s := a + [c] + b;
    if |a| == 0 {
      assert s[0] == c && s[1..] == b;
    } else {
      assert s[0] == a[0] && s[1..] == a[1..] + [c] + b;
      SplitAfterPrefix(a[1..], c, b);
      assert [a[0]] + a[1..] == a;
    }
  }

  /** `split` inverts `join` when no part contains the separator. */
  lemma {:induction false} SplitJoin(parts: seq<string>, c: char)
    requires |parts| >= 1
    requires forall i :: 0 <= i < |parts| ==> c !in parts[i]
    ensures Split(Join(parts, [c]), c) == parts
  {
    if |parts| == 1 {
      SplitNoSeparator(parts[0], c);
    } else {
      SplitJoin(parts[1..], c);
      SplitAfterPrefix(parts[0], c, Join(parts[1..], [c]));
      assert [parts[0]] + parts[1..] == parts;
    }
  }

  /** `s.endsWith(suffix)`, i.e. a match of the end-anchored pattern `suffix$`. */
  predicate HasSuffix(s: string, suffix: string) {
    |suffix| <= |s| && s[|s| - |suffix|..] == suffix
  }

  /** `s.replace(/c/g, rep)`: every occurrence of `c` becomes `rep`. */
  function ReplaceAll(s: string, c: char, rep: string): (r: string)
    ensures c !in rep ==> c !in r
    ensures |r| == |s| + Count(s, c) * (|rep| - 1)
  {
    if |s| == 0 then ""
    else (if s[0] == c then rep else [s[0]]) + ReplaceAll(s[1..], c, rep)
  }

  /** Replacing distributes over concatenation. */
  lemma {:induction false} ReplaceAllAppend(a: string, b: string, c: char, rep: string)
    ensures ReplaceAll(a + b, c, rep) == ReplaceAll(a, c, rep) + ReplaceAll(b, c, rep)
  {
    if |a| > 0 {
      assert (a + b)[0] == a[0] && (a + b)[1..] == a[1..] + b;
      ReplaceAllAppend(a[1..], b, c, rep);
    } else {
      assert a + b == b;
    }
  }

  /** Replacing a character that does not occur changes nothing. */
  lemma {:induction false} ReplaceAllAbsent(s: string, c: char, rep: string)
    requires c !in s
    ensures ReplaceAll(s, c, rep) == s
  {
    if |s| > 0 {
      ReplaceAllAbsent(s[1..], c, rep);
      assert [s[0]] + s[1..] == s;
    }
  }

  /** `ch.toLowerCase()` for the ASCII letters; every other character is kept. */
  function LowerChar(ch: char): char {
    if 'A' <= ch <= 'Z' then (ch as int - 'A' as int + 'a' as int) as char else ch
  }

  /** `s.toLowerCase()`, character by character (see LowerChar). */
  function ToLower(s: string): (r: string)
    ensures |r| == |s|
    ensures forall i :: 0 <= i < |s| ==> r[i] == LowerChar(s[i])
  {
    if |s| == 0 then "" else [LowerChar(s[0])] + ToLower(s[1..])
  }

  /** `s.startsWith(prefix)`. */
  predicate HasPrefix(s: string, prefix: string) {
    |prefix| <= |s| && s[..|prefix|] == prefix
  }

  /**
   * `xs.filter(Boolean)` on strings: the non-empty elements, in order.
   */
  function FilterNonEmpty(xs: seq<string>): (r: seq<string>)
    ensures |r| <= |xs|
    ensures forall x :: x in r <==> x in xs && x != ""
  {
    if |xs| == 0 then []
    else (if xs[0] != "" then [xs[0]] else []) + FilterNonEmpty(xs[1..])
  }

  /** A string is the text before position `i`, the character there, and the rest. */
  lemma AroundIndex(s: string, i: nat)
    requires i < |s|
    ensures s == s[..i] + ([s[i]] + s[i + 1..])
  {
  }

  /** A prefix of a concatenation. */
  lemma PrefixOfConcat(p: string, q: string)
    ensures HasPrefix(p + q, p)
  {
    assert (p + q)[..|p|] == p;
  }

  /** Two strings that differ at position `k` cannot both be prefixes of one string. */
  lemma PrefixClash(s: string, p: string, q: string, k: nat)
    requires HasPrefix(s, p) && k < |p| && k < |q| && p[k] != q[k]
    ensures !HasPrefix(s, q)
  {
    assert s[k] == s[..|p|][k];
  }

  /** A prefix of a prefix is a prefix. */
  lemma PrefixOfPrefix(s: string, a: string, b: string)
    requires HasPrefix(s, a + b)
    ensures HasPrefix(s, a)
  {
    assert s[..|a|] == (a + b)[..|a|];
  }

  /** Joining a part in front of at least one other part adds one separator. */
  lemma JoinCons(x: string, xs: seq<string>, sep: string)
    requires |xs| >= 1
    ensures Join([x] + xs, sep) == x + sep + Join(xs, sep)
  {
    assert ([x] + xs)[1..] == xs;
  }

  /** Filtering distributes over putting one element in front. */
  lemma FilterCons(x: string, xs: seq<string>)
    ensures FilterNonEmpty([x] + xs) == (if x != "" then [x] else []) + FilterNonEmpty(xs)
  {
    assert ([x] + xs)[1..] == xs;
  }

  /** Joining six blocks puts the separator between each neighbouring pair. */
  lemma JoinSix(a: string, b: string, c: string, d: string, e: string, f: string, sep: string)
    ensures Join([a, b, c, d, e, f], sep) == a + sep + b + sep + c + sep + d + sep + e + sep + f
  {
    JoinCons(e, [f], sep);
    assert [e] + [f] == [e, f];
    JoinCons(d, [e, f], sep);
    assert [d] + [e, f] == [d, e, f];
    JoinCons(c, [d, e, f], sep);
    assert [c] + [d, e, f] == [c, d, e, f];
    JoinCons(b, [c, d, e, f], sep);
    assert [b] + [c, d, e, f] == [b, c, d, e, f];
    JoinCons(a, [b, c, d, e, f], sep);
    assert [a] + [b, c, d, e, f] == [a, b, c, d, e, f];
  }

  /** Joining five blocks puts the separator between each neighbouring pair. */
  lemma JoinFive(a: string, b: string, d: string, e: string, f: string, sep: string)
    ensures Join([a, b, d, e, f], sep) == a + sep + b + sep + d + sep + e + sep + f
  {
    JoinCons(e, [f], sep);
    assert [e] + [f] == [e, f];
    JoinCons(d, [e, f], sep);
    assert [d] + [e, f] == [d, e, f];
    JoinCons(b, [d, e, f], sep);
    assert [b] + [d, e, f] == [b, d, e, f];
    JoinCons(a, [b, d, e, f], sep);
    assert [a] + [b, d, e, f] == [a, b, d, e, f];
  }

  /** Filtering distributes over concatenation. */
  lemma {:induction false} FilterAppend(xs: seq<string>, ys: seq<string>)
    ensures FilterNonEmpty(xs + ys) == FilterNonEmpty(xs) + FilterNonEmpty(ys)
  {
    if |xs| == 0 {
      assert xs + ys == ys;
    } else {
      assert xs + ys == [xs[0]] + (xs[1..] + ys);
      FilterCons(xs[0], xs[1..] + ys);
      FilterAppend(xs[1..], ys);
      FilterCons(xs[0], xs[1..]);
      assert [xs[0]] + xs[1..] == xs;
    }
  }

  /** Filtering keeps a sequence of non-empty strings as it is. */
  lemma {:induction false} FilterKeepsFilled(xs: seq<string>)
    requires forall i :: 0 <= i < |xs| ==> xs[i] != ""
    ensures FilterNonEmpty(xs) == xs
  {
    if |xs| > 0 {
      FilterKeepsFilled(xs[1..]);
      FilterCons(xs[0], xs[1..]);
      assert [xs[0]] + xs[1..] == xs;
    }
  }

  /** Filtering six blocks of which only the third may be empty drops at most that one. */
  lemma FilterSix(a: string, b: string, c: string, d: string, e: string, f: string)
    requires a != "" && b != "" && d != "" && e != "" && f != ""
    ensures c != "" ==> FilterNonEmpty([a, b, c, d, e, f]) == [a, b, c, d, e, f]
    ensures c == "" ==> FilterNonEmpty([a, b, c, d, e, f]) == [a, b, d, e, f]
  {
    var front, tail := [a, b], [d, e, f];
    FilterKeepsFilled(front);
    FilterKeepsFilled(tail);
    FilterCons(c, []);
    assert FilterNonEmpty([c]) == (if c != "" then [c] else []) by {
      assert [c] + [] == [c];
    }
    assert [a, b, c, d, e, f] == front + ([c] + tail);
    FilterAppend([c], tail);
    FilterAppend(front, [c] + tail);
  }
}

=== FILE: wrappers.dfy ===
/** Optional values: JavaScript's `undefined`/`null` versus a present value. */
module Wrappers {

  datatype Option<+T> = None | Some(value: T) {

    /** The value, or `default` when absent: JavaScript's `x ?? default`. */
    function GetOr(default: T): T {
      match this
      case Some(v) => v
      case None => default
    }
  }
}
